=== FILE: README.md ===
# Allow-listed BigQuery tool server — access control and dispatch

A Dafny model of the access-control and dispatch core of `mcp_bigquery_biomedical`.
This MCP tool server runs read-only SQL against an allow-listed set of
BigQuery public datasets. The model covers three parts:

- **Allow-list construction** (`Database.ParseAllowList`, `Database.AllowedDatasets`).
  The `ALLOWED_DATASETS` value is split on commas. Each segment is stripped of
  Python whitespace, and blank segments are dropped. An absent variable reads
  as the empty string.
- **Dataset validation and query preparation** (`Database.ValidateDataset`,
  `Database.PrepareQuery`). The empty name is refused first, then any name
  outside the allow-list. A prepared job has the default dataset
  `bigquery-public-data.<dataset>` and one STRING scalar parameter per named
  parameter.
- **Tool dispatch** (`Tools.Execute`). A pure decision from a tool name, an
  argument map, the allow-list and the recorded insights. It returns either
  the error `execute_tool` raises or the action it plans: return the
  allow-list, run a query, record an insight, or return the formatted
  insights. Its contract states the central safety property: every planned
  query runs on a non-empty dataset of the allow-list, the dataset the
  caller named, with `bigquery-public-data.<dataset>` as its default.

Python's string primitives are modelled in module `Text`: `str.isspace` on one
character, `str.strip()`, `str.split(c)` and `sep.join`. Each one comes with
its reference meaning or inverse: strip is characterised as the unique
whitespace-bounded slice, and split and join are proved to be inverses.

`validate_query_datasets` is called at tools.py:168, but its body is not part
of this model. It is the parameter `refsOk: string -> bool` of `Tools.Execute`.
It is consulted on the stripped query, and only after every other
`read-query` guard has passed.

The code does not scan query text for dataset references and does not
rewrite queries: `execute_query` (database.py:65) submits the query text
unchanged, and the model's job keeps it unchanged. An absent
`ALLOWED_DATASETS` gives an empty allow-list, not an error (database.py:22),
and the model follows that (`Database.AllowedDatasets`).

`BigQueryDatabase` as written (database.py:13-72) defines no
`validate_query_datasets`, so every non-empty `read-query` that passes the
dataset check would raise `AttributeError` at tools.py:168. Choosing
`refsOk := _ => false` reproduces that behaviour, and
`Tools.ReadQueryWithoutValidator` proves that `read-query` then never plans
a query.

Files: `wrappers.dfy` (Option/Result/Outcome), `text.dfy` (module `Text`),
`database.dfy` (module `Database`, for database.py), `tools.dfy`
(module `Tools`, for tools.py).

## Model

| member | source | states |
|---|---|---|
| Text.Strip | src/mcp_bigquery_biomedical/database.py:23 | `ds.strip()` returns a slice of its input with only whitespace cut from either end, and the result neither starts nor ends with whitespace; whitespace is Python's `str.isspace` on one code point (`Text.IsSpace`, all 29 code points) |
| Text.StripCharacterized | src/mcp_bigquery_biomedical/database.py:23 | a string is the stripped form of `s` if and only if it is the whitespace-bounded slice that cuts only whitespace away, so strip is uniquely determined |
| Text.StripIdempotent | src/mcp_bigquery_biomedical/database.py:23 | stripping an already stripped segment changes nothing |
| Text.StripEmptyIffAllSpace | src/mcp_bigquery_biomedical/database.py:23 | a segment strips to the empty string exactly when it is all whitespace, which is when the filter drops it |
| Text.Split | src/mcp_bigquery_biomedical/database.py:22 | `split(',')` yields one more piece than there are commas, and no piece contains a comma |
| Text.Join | src/mcp_bigquery_biomedical/tools.py:187 | `"\n".join` of no parts is the empty string and of one part is that part; otherwise its length is the parts' total length plus one separator per gap, and it starts with the first part |
| Text.JoinAppend | src/mcp_bigquery_biomedical/tools.py:187 | joining two non-empty lists back to back puts exactly one separator between them, so with the one-part case every part is kept in order with one separator between neighbours |
| Text.JoinSplit | src/mcp_bigquery_biomedical/database.py:22 | re-joining the pieces with the separator gives back the configuration string, so splitting loses nothing |
| Text.SplitJoin | src/mcp_bigquery_biomedical/database.py:22 | splitting a join of comma-free pieces gives back those pieces, the other direction of the round trip |
| Text.SplitAppend | src/mcp_bigquery_biomedical/database.py:22 | the pieces of `a,b` are the pieces of `a` followed by those of `b` |
| Database.KeepNonBlank | src/mcp_bigquery_biomedical/database.py:23 | the filtered list has no empty entry and no entry with surrounding whitespace; a string is in it iff it is non-empty and is the stripped form of some segment |
| Database.ParseAllowList | src/mcp_bigquery_biomedical/database.py:22-23 | the allow-list holds exactly the non-blank stripped comma-separated segments, and all of them are well formed |
| Database.AllowedDatasets | src/mcp_bigquery_biomedical/database.py:20-23 | an absent or empty configuration value yields the empty allow-list and no error; every entry is non-empty and trimmed |
| Database.KeepNonBlankAppend | src/mcp_bigquery_biomedical/database.py:23 | stripping and filtering a concatenation gives the concatenation of the results, so relative order is kept |
| Database.ParseAllowListAppend | src/mcp_bigquery_biomedical/database.py:22-23 | the allow-list of `a,b` is the allow-list of `a` followed by that of `b`: configuration order and duplicates are kept |
| Database.ParseAllowListSegment | src/mcp_bigquery_biomedical/database.py:22-23 | a comma-free segment contributes nothing when blank, and exactly its stripped text otherwise |
| Database.ValidateDataset | src/mcp_bigquery_biomedical/database.py:39-44 | validation passes iff the name is non-empty and in the allow-list; the empty name fails as empty even when the allow-list contains it; any other non-member fails as not allowed, carrying the name and the allow-list |
| Database.ValidateParsedAllowList | src/mcp_bigquery_biomedical/database.py:41-44 | for an allow-list built from configuration, validation passes exactly for its members |
| Database.DatasetErrorMessage | src/mcp_bigquery_biomedical/database.py:42-44 | the empty name gives the fixed text `Dataset name cannot be empty`; the rejection message is exactly `Dataset '`, the offending dataset, `' is not in allowed datasets: ` and the rendered allow-list, in that order |
| Database.ToParams | src/mcp_bigquery_biomedical/database.py:58-61 | one parameter per entry, each of type STRING |
| Database.BindingsOfParams | src/mcp_bigquery_biomedical/database.py:58-61 | the parameters carry exactly the entries' names and values in entry order, so the conversion is lossless |
| Database.DefaultDataset | src/mcp_bigquery_biomedical/database.py:52-54 | the default dataset is the catalog `bigquery-public-data`, a dot, then exactly the dataset name |
| Database.DefaultDatasetInjective | src/mcp_bigquery_biomedical/database.py:53 | distinct datasets give distinct default datasets |
| Database.PrepareQuery | src/mcp_bigquery_biomedical/database.py:46-62 | a job is built iff the dataset validates, and a failure is the validation error; the job keeps the query text unchanged, has the default dataset of the validated name, and binds exactly the given parameters as STRING; no parameters attaches none |
| Tools.LookupTool | src/mcp_bigquery_biomedical/tools.py:111-114 | a name resolves to a tool iff it is one of the six advertised names, and it resolves to the tool advertised under that name |
| Tools.LookupToolName | src/mcp_bigquery_biomedical/tools.py:21-103 | every advertised tool is found again under its own name |
| Tools.ToolErrorMessage | src/mcp_bigquery_biomedical/tools.py:112-175 | every error except a refused query has a message: `Unknown tool: ` or `Missing dataset argument for ` followed by exactly the tool name, the validation message for dataset errors, and the fixed texts for a missing table name, query or finding |
| Tools.Get | src/mcp_bigquery_biomedical/tools.py:122 | `arguments.get(key)` yields a value iff the key is present, and then exactly the argument's value |
| Tools.Truthy | src/mcp_bigquery_biomedical/tools.py:123 | `not x` holds for an optional string exactly when it is `None` or the empty string |
| Tools.Bullets | src/mcp_bigquery_biomedical/tools.py:187 | the generator yields one `- ` line per insight, in insertion order |
| Tools.FormatInsights | src/mcp_bigquery_biomedical/tools.py:184-188 | no insights gives the fixed "No insights" reply, and only then; otherwise the reply is the header followed by one `- ` line per insight, in order |
| Tools.JoinBullets | src/mcp_bigquery_biomedical/tools.py:187 | the newline-joined bullets are exactly the reference bullet block |
| Tools.FormatInsightsAppend | src/mcp_bigquery_biomedical/tools.py:184-188 | recording one more insight adds one line at the end of the listing and keeps the earlier lines |
| Tools.Plan | src/mcp_bigquery_biomedical/tools.py:135-169 | each `execute_query` call plans a query only on an allow-listed dataset, with the SQL text and projection it was given |
| Tools.DatasetTool | src/mcp_bigquery_biomedical/tools.py:128-169 | past the dataset check, a dataset-bearing tool can only plan a query, on the validated dataset |
| Tools.Execute | src/mcp_bigquery_biomedical/tools.py:106-193 | an unknown tool name is refused before anything else; every planned query comes from a dataset-bearing tool and runs on the caller's non-empty, allow-listed `dataset` argument, with that dataset's default |
| Tools.ListDatasetsReturnsAllowList | src/mcp_bigquery_biomedical/tools.py:116-118 | `list-datasets` ignores its arguments, validates nothing and returns the allow-list |
| Tools.DatasetCheckedFirst | src/mcp_bigquery_biomedical/tools.py:121-126 | for `list-tables`, `describe-table` and `read-query`, a missing or empty dataset is refused, then a non-allowed one, before any other argument is looked at |
| Tools.EmptyAllowListPlansNothing | src/mcp_bigquery_biomedical/tools.py:121-126 | with an empty allow-list no tool call plans a query |
| Tools.ListTablesPlan | src/mcp_bigquery_biomedical/tools.py:128-137 | `list-tables` on an allowed dataset plans the fixed table-listing SQL with that dataset's default and no parameters |
| Tools.DescribeTablePlan | src/mcp_bigquery_biomedical/tools.py:139-151 | `describe-table` refuses a missing or empty table name; otherwise the SQL text is fixed whatever the name, and the name is bound only as the `table_name` STRING parameter |
| Tools.ReadQueryPlan | src/mcp_bigquery_biomedical/tools.py:162-169 | `read-query` strips the query and refuses an empty result; the reference check is consulted only then; the stripped text is planned with no parameters |
| Tools.ReadQueryChecked | src/mcp_bigquery_biomedical/tools.py:163-169 | every query `read-query` plans is non-empty, trimmed and accepted by the reference check |
| Tools.ReadQueryWithoutValidator | src/mcp_bigquery_biomedical/tools.py:168-169 | when the reference check refuses everything, `read-query` never plans a query |
| Tools.AppendInsightPlan | src/mcp_bigquery_biomedical/tools.py:172-181 | `append-insight` refuses a call without the `finding` key; with it, even an empty finding is recorded as given, with the reply `Insight added` |
| Tools.InsightsAfter | src/mcp_bigquery_biomedical/tools.py:179 | the insights only grow: the old list is a prefix of the new one, which is longer by one exactly when an insight was recorded, and the new last entry is that finding |
| Tools.GetInsightsPlan | src/mcp_bigquery_biomedical/tools.py:183-188 | `get-insights` returns the formatted listing of the recorded insights |
| Tools.InsightsAppendOnly | src/mcp_bigquery_biomedical/tools.py:172-181 | only a successful `append-insight` changes the insights, and it appends exactly its finding; every other call leaves them unchanged |

## Left out

- BigQuery client construction and credential loading (database.py:25-37): external library and file I/O.
- Query submission, result iteration, row-to-dict conversion and the `RuntimeError` wrapping (database.py:64-72): remote calls. A planned query is an `Action.RunQuery` value carrying the job and how its rows would be projected.
- The body of `validate_query_datasets` and any query rewriting: neither is part of this model, so the check is the parameter `refsOk`.
- `MemoManager` internals: the insights are an append-only sequence of strings passed in and returned.
- Logging, dotenv loading, `async`, the MCP tool JSON schemas and descriptions, and wrapping replies in `TextContent`.
- Database.DatasetErrorMessage: Python's `str()` rendering of the allow-list is the parameter `render`, so the message is stated only up to that rendering.
- Tools.ToolErrorMessage: the message of a refused query comes from `validate_query_datasets` and is not modelled.
- Tools.Execute: argument values are modelled as strings, as the tool schemas declare. A non-string value would take Python's type-dependent paths, and those are not modelled. A missing `arguments` (`None`) would raise `AttributeError` at tools.py:122 for the three dataset-bearing tools and `TypeError` at tools.py:173 for `append-insight`, while `list-datasets` and `get-insights` never read `arguments` and behave as with an empty map; these runtime accidents are not modelled.
- Tools.Execute: the `str()` rendering of the returned allow-list, table names, columns and rows is not modelled; the action carries the values themselves.

=== FILE: database.dfy ===
/** The pure part of `BigQueryDatabase` (src/mcp_bigquery_biomedical/database.py):
    building the allow-list from the `ALLOWED_DATASETS` configuration value,
    validating a dataset name against it, and preparing the query job that
    `execute_query` would submit. Client construction, credentials and the
    remote call itself are outside the model. */
module Database {
  import opened Wrappers
  import opened Text

  /** The public catalog every allowed dataset lives in. */
  const Catalog: string := "bigquery-public-data"

  /** The parameter type every named query parameter is given. */
  const StringType: string := "STRING"

  // ---------------------------------------------------------------------
  // Allow-list construction
  // ---------------------------------------------------------------------

  /** An allow-list entry as the parser produces it: non-empty and without
      surrounding whitespace. */
  predicate WellFormedEntry(d: string) {
    d != "" && Trimmed(d)
  }

  predicate WellFormedAllowList(allowed: seq<string>) {
    forall k :: 0 <= k < |allowed| ==> WellFormedEntry(allowed[k])
  }

  /** Strip every segment and keep the non-blank ones, in order. */
  function KeepNonBlank(segments: seq<string>): (r: seq<string>)
    ensures WellFormedAllowList(r)
    ensures |r| <= |segments|
    ensures forall d :: d in r <==> d != "" && exists k :: 0 <= k < |segments| && Strip(segments[k]) == d
  {
    if |segments| == 0 then
      []
    else
      var t := Strip(segments[0]);
      var rest := KeepNonBlank(segments[1..]);
      assert forall k :: 0 < k < |segments| ==> segments[k] == segments[1..][k - 1];
      assert forall k :: 0 <= k < |segments[1..]| ==> segments[1..][k] == segments[k + 1];
      if t == "" then rest else [t] + rest
  }

  /** The allow-list parsed from a configuration value: the comma-separated
      segments, each stripped, blank ones dropped. */
  function ParseAllowList(config: string): (r: seq<string>)
    ensures WellFormedAllowList(r)
    ensures forall d :: d in r <==> d != "" && exists p :: p in Split(config, ',') && Strip(p) == d
  {
    KeepNonBlank(Split(config, ','))
  }

  /** The allow-list read from the environment; an absent variable reads as
      the empty string. */
  function AllowedDatasets(env: Option<string>): (r: seq<string>)
    ensures WellFormedAllowList(r)
    ensures env == None || env == Some("") ==> r == []
  {
    ParseAllowList(env.GetOr(""))
  }

  /** Filtering distributes over concatenation, so configuration order is kept. */
  lemma {:induction false} KeepNonBlankAppend(a: seq<string>, b: seq<string>)
    ensures KeepNonBlank(a + b) == KeepNonBlank(a) + KeepNonBlank(b)
  {
    if |a| > 0 {
      assert (a + b)[0] == a[0];
      assert (a + b)[1..] == a[1..] + b;
      KeepNonBlankAppend(a[1..], b);
    } else {
      assert a + b == b;
    }
  }

  /** The allow-list of `a,b` is the allow-list of `a` followed by that of
      `b`: entries keep configuration order, duplicates included. */
  lemma ParseAllowListAppend(a: string, b: string)
    ensures ParseAllowList(a + "," + b) == ParseAllowList(a) + ParseAllowList(b)
  {
    assert a + "," + b == a + [','] + b;
    SplitAppend(a, b, ',');
    KeepNonBlankAppend(Split(a, ','), Split(b, ','));
  }

  /** A single segment (no comma) yields its stripped text, or nothing when
      it is blank. */
  lemma ParseAllowListSegment(s: string)
    requires ',' !in s
    ensures ParseAllowList(s) == (if AllSpace(s) then [] else [Strip(s)])
  {
    SplitNoSeparator(s, ',');
    StripEmptyIffAllSpace(s);
    assert [s][1..] == [];
  }

  // ---------------------------------------------------------------------
  // Dataset validation
  // ---------------------------------------------------------------------

  /** The two ways `validate_dataset` raises. */
  datatype DatasetError =
    | EmptyDataset
    | NotAllowed(dataset: string, allowed: seq<string>)

  /** `validate_dataset`: the empty name is refused first, then any name not
      in the allow-list. */
  function ValidateDataset(dataset: string, allowed: seq<string>): (r: Outcome<DatasetError>)
    ensures r.Pass? <==> dataset != "" && dataset in allowed
    ensures dataset == "" ==> r == Fail(EmptyDataset)
    ensures dataset != "" && dataset !in allowed ==> r == Fail(NotAllowed(dataset, allowed))
  {
    if dataset == "" then Fail(EmptyDataset)
    else if dataset !in allowed then Fail(NotAllowed(dataset, allowed))
    else Pass
  }

  /** For an allow-list built from configuration, membership alone decides:
      the empty name can never be a member. */
  lemma ValidateParsedAllowList(dataset: string, config: string)
    ensures ValidateDataset(dataset, ParseAllowList(config)).Pass? <==> dataset in ParseAllowList(config)
  {
  }

  /** The exception text of a validation failure. Python's `str()` of the
      allow-list is supplied as `render`. */
  function DatasetErrorMessage(e: DatasetError, render: seq<string> -> string): (msg: string)
    ensures e.EmptyDataset? ==> msg == "Dataset name cannot be empty"
    ensures e.NotAllowed? ==>
      && |msg| == 9 + |e.dataset| + 30 + |render(e.allowed)|
      && msg[..9] == "Dataset '"
      && msg[9..9 + |e.dataset|] == e.dataset
      && msg[9 + |e.dataset|..|msg| - |render(e.allowed)|] == "' is not in allowed datasets: "
      && msg[|msg| - |render(e.allowed)|..] == render(e.allowed)
  {
    match e
    case EmptyDataset => "Dataset name cannot be empty"
    case NotAllowed(d, allowed) => "Dataset '" + d + "' is not in allowed datasets: " + render(allowed)
  }

  // ---------------------------------------------------------------------
  // Query preparation (the pure prefix of execute_query)
  // ---------------------------------------------------------------------

  /** `bigquery.ScalarQueryParameter(name, type, value)`. */
  datatype ScalarParam = ScalarParam(name: string, paramType: string, value: string)

  /** The job `execute_query` submits: the SQL text, the default dataset of
      its job configuration and the named query parameters. */
  datatype QueryJob = QueryJob(sql: string, defaultDataset: string, params: seq<ScalarParam>)

  /** One STRING scalar parameter per `(name, value)` entry, in entry order. */
  function ToParams(entries: seq<(string, string)>): (r: seq<ScalarParam>)
    ensures |r| == |entries|
    ensures forall k :: 0 <= k < |r| ==> r[k].paramType == StringType
  {
    if |entries| == 0 then []
    else [ScalarParam(entries[0].0, StringType, entries[0].1)] + ToParams(entries[1..])
  }

  /** The `(name, value)` bindings a parameter list carries. */
  function Bindings(params: seq<ScalarParam>): seq<(string, string)> {
    if |params| == 0 then [] else [(params[0].name, params[0].value)] + Bindings(params[1..])
  }

  /** Converting entries to parameters loses nothing: the bindings read back
      are the entries, same names, same values, same order. */
  lemma {:induction false} BindingsOfParams(entries: seq<(string, string)>)
    ensures Bindings(ToParams(entries)) == entries
  {
    if |entries| > 0 {
      BindingsOfParams(entries[1..]);
      assert entries == [entries[0]] + entries[1..];
    }
  }

  /** The default-dataset string of a job configuration. */
  function DefaultDataset(dataset: string): (r: string)
    ensures |r| == |Catalog| + 1 + |dataset|
    ensures r[..|Catalog|] == Catalog && r[|Catalog|] == '.'
    ensures r[|Catalog| + 1..] == dataset
  {
    Catalog + "." + dataset
  }

  /** Distinct datasets give distinct default datasets. */
  lemma DefaultDatasetInjective(a: string, b: string)
    requires DefaultDataset(a) == DefaultDataset(b)
    ensures a == b
  {
    assert a == DefaultDataset(a)[|Catalog| + 1..];
  }

  /** The pure prefix of `execute_query`: validate the dataset, then build
      the job. `entries` are the named parameters; an absent or empty
      parameter dictionary attaches none. */
  function PrepareQuery(sql: string, dataset: string, entries: seq<(string, string)>,
                        allowed: seq<string>): (r: Result<QueryJob, DatasetError>)
    ensures r.Success? <==> ValidateDataset(dataset, allowed).Pass?
    ensures r.Failure? ==> r.error == ValidateDataset(dataset, allowed).error
    ensures r.Success? ==>
      && r.value.sql == sql
      && r.value.defaultDataset == DefaultDataset(dataset)
      && |r.value.params| == |entries|
      && Bindings(r.value.params) == entries
      && forall k :: 0 <= k < |r.value.params| ==> r.value.params[k].paramType == StringType
  {
    BindingsOfParams(entries);
    :- ValidateDataset(dataset, allowed);
    Success(QueryJob(sql, DefaultDataset(dataset), ToParams(entries)))
  }
}

=== FILE: text.dfy ===
/** The Python string operations the allow-list parser and the dispatcher
    rely on: `str.isspace` on one character, `str.strip()` with no argument,
    `str.split(sep)` on a one-character separator and `sep.join(parts)`. */
module Text {

  /** Python's `str.isspace()` on a single code point: the ASCII whitespace
      and separator controls, NEL, NO-BREAK SPACE and the Unicode space
      separators, line separator and paragraph separator. */
  predicate IsSpace(c: char) {
    c in {
      '\t', '\n', '\U{0B}', '\U{0C}', '\r',
      '\U{1C}', '\U{1D}', '\U{1E}', '\U{1F}', ' ',
      '\U{85}', '\U{A0}', '\U{1680}',
      '\U{2000}', '\U{2001}', '\U{2002}', '\U{2003}', '\U{2004}', '\U{2005}',
      '\U{2006}', '\U{2007}', '\U{2008}', '\U{2009}', '\U{200A}',
      '\U{2028}', '\U{2029}', '\U{202F}', '\U{205F}', '\U{3000}'
    }
  }

  /** Every character of `s` is whitespace (vacuously so for ""). */
  predicate AllSpace(s: string) {
    forall k :: 0 <= k < |s| ==> IsSpace(s[k])
  }

  /** `s` neither starts nor ends with whitespace. */
  predicate Trimmed(s: string) {
    s == [] || (!IsSpace(s[0]) && !IsSpace(s[|s| - 1]))
  }

  /** Number of whitespace characters at the front of `s`. */
  function LeadingSpaces(s: string): (n: nat)
    ensures n <= |s|
    ensures AllSpace(s[..n])
    ensures n < |s| ==> !IsSpace(s[n])
  {
    if |s| > 0 && IsSpace(s[0]) then
      var n := 1 + LeadingSpaces(s[1..]);
      assert s[..n] == [s[0]] + s[1..][..n - 1];
      n
    else
      0
  }

  /** Number of whitespace characters at the end of `s`. */
  function TrailingSpaces(s: string): (n: nat)
    ensures n <= |s|
    ensures AllSpace(s[|s| - n..])
    ensures n < |s| ==> !IsSpace(s[|s| - n - 1])
  {
    if |s| > 0 && IsSpace(s[|s| - 1]) then
      var n := 1 + TrailingSpaces(s[..|s| - 1]);
      assert s[|s| - n..] == s[..|s| - 1][|s| - n..] + [s[|s| - 1]];
      n
    else
      0
  }

  /** Python's `s.strip()`: `s` without its leading and trailing whitespace. */
  function Strip(s: string): (r: string)
    ensures IsStripOf(s, r)
    ensures Trimmed(r)
  {
    var i := LeadingSpaces(s);
    var t := s[i..];
    var j := i + |t| - TrailingSpaces(t);
    assert t[..|t| - TrailingSpaces(t)] == s[i..j];
    assert t[|t| - TrailingSpaces(t)..] == s[j..];
    s[i..j]
  }

  /** The reference meaning of stripping: `r` is a slice of `s` that starts
      and ends on non-whitespace, and everything cut off on either side is
      whitespace. */
  ghost predicate IsStripOf(s: string, r: string) {
    exists i, j :: 0 <= i <= j <= |s| && r == s[i..j]
      && AllSpace(s[..i]) && AllSpace(s[j..]) && Trimmed(r)
  }

  /** The reference meaning determines the stripped string: `Strip` is the
      one and only string that `IsStripOf` admits. */
  lemma StripCharacterized(s: string, r: string)
    ensures IsStripOf(s, r) <==> r == Strip(s)
  {
    if IsStripOf(s, r) {
      var i, j :| 0 <= i <= j <= |s| && r == s[i..j]
        && AllSpace(s[..i]) && AllSpace(s[j..]) && Trimmed(r);
      var i', j' :| 0 <= i' <= j' <= |s| && Strip(s) == s[i'..j']
        && AllSpace(s[..i']) && AllSpace(s[j'..]) && Trimmed(Strip(s));
      SliceUnique(s, i, j, i', j');
    }
  }

  /** Two whitespace-bounded slices that cut only whitespace away are equal. */
  lemma SliceUnique(s: string, i: int, j: int, i': int, j': int)
    requires 0 <= i <= j <= |s| && AllSpace(s[..i]) && AllSpace(s[j..]) && Trimmed(s[i..j])
    requires 0 <= i' <= j' <= |s| && AllSpace(s[..i']) && AllSpace(s[j'..]) && Trimmed(s[i'..j'])
    ensures s[i..j] == s[i'..j']
  {
    if i < j {
      NotSpaceBounds(s, i, i', j');
      NotSpaceBounds(s, j - 1, i', j');
    }
    if i' < j' {
      NotSpaceBounds(s, i', i, j);
      NotSpaceBounds(s, j' - 1, i, j);
    }
  }

  /** A non-whitespace character lies between the cut points of any slice
      that cuts only whitespace away. */
  lemma NotSpaceBounds(s: string, k: int, i: int, j: int)
    requires 0 <= k < |s| && !IsSpace(s[k])
    requires 0 <= i <= j <= |s| && AllSpace(s[..i]) && AllSpace(s[j..])
    ensures i <= k < j
  {
  }

  /** Stripping twice strips nothing more. */
  lemma StripIdempotent(s: string)
    ensures Strip(Strip(s)) == Strip(s)
  {
    var r := Strip(s);
    assert r[..0] == [] && r[|r|..] == [] && r[0..|r|] == r;
    assert IsStripOf(r, r);
    StripCharacterized(r, r);
  }

  /** A string strips to "" exactly when it is all whitespace. */
  lemma StripEmptyIffAllSpace(s: string)
    ensures Strip(s) == "" <==> AllSpace(s)
  {
    var i, j :| 0 <= i <= j <= |s| && Strip(s) == s[i..j]
      && AllSpace(s[..i]) && AllSpace(s[j..]) && Trimmed(Strip(s));
    if Strip(s) == "" {
      forall k | 0 <= k < |s|
        ensures IsSpace(s[k])
      {
        if k < i { assert s[..i][k] == s[k]; } else { assert s[j..][k - j] == s[k]; }
      }
    } else {
      assert s[i] == Strip(s)[0];
    }
  }

  /** Number of occurrences of `c` in `s`. */
  function Count(s: string, c: char): nat {
    if |s| == 0 then 0 else (if s[0] == c then 1 else 0) + Count(s[1..], c)
  }

  /** Python's `s.split(c)` for a one-character separator: the maximal runs
      between separators, including empty runs at either end. */
  function Split(s: string, c: char): (parts: seq<string>)
    ensures |parts| == Count(s, c) + 1
    ensures forall k :: 0 <= k < |parts| ==> c !in parts[k]
  {
    if |s| == 0 then
      [""]
    else
      var rest := Split(s[1..], c);
      if s[0] == c then [""] + rest else [[s[0]] + rest[0]] + rest[1..]
  }

  /** Total length of a list of strings. */
  function TotalLength(parts: seq<string>): nat {
    if |parts| == 0 then 0 else |parts[0]| + TotalLength(parts[1..])
  }

  /** Python's `sep.join(parts)`: the parts in order, one separator between
      each neighbouring pair. */
  function Join(parts: seq<string>, sep: string): (r: string)
    ensures |parts| > 0 ==> |r| == TotalLength(parts) + (|parts| - 1) * |sep|
    ensures |parts| > 0 ==> |r| >= |parts[0]| && r[..|parts[0]|] == parts[0]
    ensures |parts| == 0 ==> r == ""
    ensures |parts| == 1 ==> r == parts[0]
  {
    if |parts| == 0 then ""
    else if |parts| == 1 then parts[0]
    else parts[0] + sep + Join(parts[1..], sep)
  }

  /** Joining two non-empty lists back to back puts exactly one separator
      between the last part of the first and the first part of the second;
      with the one-part case this fixes the join of every list. */
  lemma {:induction false} JoinAppend(a: seq<string>, b: seq<string>, sep: string)
    requires |a| > 0 && |b| > 0
    ensures Join(a + b, sep) == Join(a, sep) + sep + Join(b, sep)
  {
    assert (a + b)[0] == a[0];
    assert (a + b)[1..] == a[1..] + b;
    if |a| > 1 {
      JoinAppend(a[1..], b, sep);
    }
  }

  /** Joining the pieces of a split with the separator gives back the input. */
  lemma {:induction false} JoinSplit(s: string, c: char)
    ensures Join(Split(s, c), [c]) == s
  {
    if |s| > 0 {
      JoinSplit(s[1..], c);
      var rest := Split(s[1..], c);
      if s[0] == c {
        assert Split(s, c) == [""] + rest;
        assert s == [c] + s[1..];
      } else {
        var parts := Split(s, c);
        assert parts == [[s[0]] + rest[0]] + rest[1..];
        if |rest| == 1 {
          assert s == [s[0]] + s[1..];
        } else {
          assert parts[1..] == rest[1..];
          assert Join(rest, [c]) == rest[0] + [c] + Join(rest[1..], [c]);
          assert s == [s[0]] + s[1..];
        }
      }
    }
  }

  /** Splitting a join of separator-free pieces gives back the pieces. */
  lemma {:induction false} SplitJoin(parts: seq<string>, c: char)
    requires |parts| >= 1
    requires forall k :: 0 <= k < |parts| ==> c !in parts[k]
    ensures Split(Join(parts, [c]), c) == parts
  {
    if |parts| == 1 {
      SplitNoSeparator(parts[0], c);
    } else {
      SplitJoin(parts[1..], c);
      assert Join(parts, [c]) == parts[0] + [c] + Join(parts[1..], [c]);
      SplitAppend(parts[0], Join(parts[1..], [c]), c);
      SplitNoSeparator(parts[0], c);
      assert parts == [parts[0]] + parts[1..];
    }
  }

  /** A string without the separator splits into itself alone. */
  lemma {:induction false} SplitNoSeparator(s: string, c: char)
    requires c !in s
    ensures Split(s, c) == [s]
  {
    if |s| > 0 {
      assert s[1..] == s[1..] && c !in s[1..] by {
        forall k | 0 <= k < |s[1..]| ensures s[1..][k] != c { assert s[1..][k] == s[k + 1]; }
      }
      SplitNoSeparator(s[1..], c);
      assert [s[0]] + s[1..] == s;
    }
  }

  /** Split distributes over a separator: the pieces of `a c b` are the
      pieces of `a` followed by the pieces of `b`, in that order. */
  lemma {:induction false} SplitAppend(a: string, b: string, c: char)
    ensures Split(a + [c] + b, c) == Split(a, c) + Split(b, c)
  {
    var s := a + [c] + b;
    if |a| == 0 {
      assert s[0] == c && s[1..] == b;
    } else {
      assert s[0] == a[0];
      assert s[1..] == a[1..] + [c] + b;
      SplitAppend(a[1..], b, c);
    }
  }
}

=== FILE: tools.dfy ===
/** `ToolManager.execute_tool` (src/mcp_bigquery_biomedical/tools.py) as a pure
    decision: given a tool name, its arguments, the allow-list and the
    recorded insights, either the error the tool raises or the action it
    plans. Running a planned query, converting rows and rendering text are
    left to the caller. */
module Tools {
  import opened Wrappers
  import opened Text
  import opened Database

  /** The six tools `get_available_tools` advertises. */
  datatype Tool =
    | ListDatasets
    | ReadQuery
    | ListTables
    | DescribeTable
    | AppendInsight
    | GetInsights
  {
    /** The name the tool is advertised and invoked under. */
    function Name(): string {
      match this
      case ListDatasets => "list-datasets"
      case ReadQuery => "read-query"
      case ListTables => "list-tables"
      case DescribeTable => "describe-table"
      case AppendInsight => "append-insight"
      case GetInsights => "get-insights"
    }

    /** The tools that take a `dataset` argument and validate it. */
    predicate NeedsDataset() {
      ListTables? || DescribeTable? || ReadQuery?
    }
  }

  /** The advertised tools, in advertisement order. */
  const AdvertisedTools: seq<Tool> :=
    [ListDatasets, ReadQuery, ListTables, DescribeTable, AppendInsight, GetInsights]

  /** The set of advertised tool names. */
  function ToolNames(): set<string> {
    set t | t in AdvertisedTools :: t.Name()
  }

  /** The advertised tool a name refers to, if any. */
  function LookupTool(name: string): (r: Option<Tool>)
    ensures r.Some? <==> name in ToolNames()
    ensures r.Some? ==> r.value.Name() == name
  {
    assert ListDatasets.Name() in ToolNames() && ReadQuery.Name() in ToolNames();
    assert ListTables.Name() in ToolNames() && DescribeTable.Name() in ToolNames();
    assert AppendInsight.Name() in ToolNames() && GetInsights.Name() in ToolNames();
    if name == "list-datasets" then Some(ListDatasets)
    else if name == "read-query" then Some(ReadQuery)
    else if name == "list-tables" then Some(ListTables)
    else if name == "describe-table" then Some(DescribeTable)
    else if name == "append-insight" then Some(AppendInsight)
    else if name == "get-insights" then Some(GetInsights)
    else None
  }

  /** Every tool is found again under its own name: names and tools are in
      one-to-one correspondence. */
  lemma LookupToolName(t: Tool)
    ensures LookupTool(t.Name()) == Some(t)
  {
  }

  /** Tool arguments; every argument the tools read is declared a string. */
  type Arguments = map<string, string>

  /** Python's `arguments.get(key)`. */
  function Get(args: Arguments, key: string): (r: Option<string>)
    ensures r.Some? <==> key in args
    ensures r.Some? ==> r.value == args[key]
  {
    if key in args then Some(args[key]) else None
  }

  /** Python truthiness of an optional string: `None` and `""` are the only
      falsy values. */
  function Truthy(v: Option<string>): (b: bool)
    ensures !b <==> v == None || v == Some("")
  {
    v.Some? && |v.value| > 0
  }

  /** The errors `execute_tool` raises. */
  datatype ToolError =
    | UnknownTool(name: string)
    | MissingDataset(tool: string)
    | InvalidDataset(cause: DatasetError)
    | MissingTableName
    | MissingQuery
    | QueryRejected(query: string)
    | MissingFinding

  /** The exception text of a tool error. Python's `str()` of the allow-list
      is supplied as `render`; the text of a refused query comes from
      `validate_query_datasets`, which is not part of this model, so it has
      none here. */
  function ToolErrorMessage(e: ToolError, render: seq<string> -> string): (msg: Option<string>)
    ensures msg.None? <==> e.QueryRejected?
    ensures e.UnknownTool? ==>
      && |msg.value| == |"Unknown tool: "| + |e.name|
      && msg.value[..|"Unknown tool: "|] == "Unknown tool: "
      && msg.value[|"Unknown tool: "|..] == e.name
    ensures e.MissingDataset? ==>
      && |msg.value| == |"Missing dataset argument for "| + |e.tool|
      && msg.value[..|"Missing dataset argument for "|] == "Missing dataset argument for "
      && msg.value[|"Missing dataset argument for "|..] == e.tool
    ensures e.InvalidDataset? ==> msg == Some(DatasetErrorMessage(e.cause, render))
    ensures e.MissingTableName? ==> msg == Some("Missing table_name argument")
    ensures e.MissingQuery? ==> msg == Some("Missing query argument")
    ensures e.MissingFinding? ==> msg == Some("Missing finding argument")
  {
    match e
    case UnknownTool(name) => Some("Unknown tool: " + name)
    case MissingDataset(tool) => Some("Missing dataset argument for " + tool)
    case InvalidDataset(cause) => Some(DatasetErrorMessage(cause, render))
    case MissingTableName => Some("Missing table_name argument")
    case MissingQuery => Some("Missing query argument")
    case QueryRejected(_) => None
    case MissingFinding => Some("Missing finding argument")
  }

  /** What a query's rows are turned into before they are returned. */
  datatype Projection =
    | TableNames          // the `table_name` of each row
    | ColumnDescriptions  // `column_name`, `data_type` and `is_nullable` of each row
    | AllRows             // every row as it came back

  /** The action a successful tool call performs. */
  datatype Action =
    | ReturnDatasets(datasets: seq<string>)
    | RunQuery(dataset: string, job: QueryJob, projection: Projection)
    | RecordInsight(finding: string, reply: string)
    | ReturnText(text: string)

  /** SQL text of `list-tables`. */
  const ListTablesSql: string :=
    "\n                    SELECT table_name\n"
    + "                    FROM INFORMATION_SCHEMA.TABLES\n"
    + "                    ORDER BY table_name;\n                "

  /** SQL text of `describe-table`; the table name enters only as the
      `@table_name` query parameter. */
  const DescribeTableSql: string :=
    "\n                    SELECT column_name, data_type, is_nullable\n"
    + "                    FROM INFORMATION_SCHEMA.COLUMNS\n"
    + "                    WHERE table_name = @table_name\n"
    + "                    ORDER BY ordinal_position;\n                "

  /** Reply of `append-insight`. */
  const InsightAddedReply: string := "Insight added"

  /** Reply of `get-insights` when nothing has been recorded. */
  const NoInsightsReply: string := "No insights have been recorded yet."

  /** Header that precedes the recorded insights. */
  const InsightsHeader: string := "\n\nRecorded Insights:\n"

  /** One `- ` line per insight. */
  function Bullets(insights: seq<string>): (r: seq<string>)
    ensures |r| == |insights|
    ensures forall k :: 0 <= k < |r| ==> r[k] == "- " + insights[k]
  {
    if |insights| == 0 then [] else ["- " + insights[0]] + Bullets(insights[1..])
  }

  /** Reference layout of the insight listing: each insight on a line of
      its own after a line break, introduced by `- `. */
  function BulletBlock(insights: seq<string>): string {
    if |insights| == 0 then "" else "\n- " + insights[0] + BulletBlock(insights[1..])
  }

  /** Joining the bullets with line breaks is the bullet block without its
      first line break. */
  lemma {:induction false} JoinBullets(insights: seq<string>)
    requires |insights| > 0
    ensures "\n" + Join(Bullets(insights), "\n") == BulletBlock(insights)
  {
    if |insights| > 1 {
      JoinBullets(insights[1..]);
      assert Bullets(insights)[1..] == Bullets(insights[1..]);
    }
  }

  /** Appending to the bullet block follows insertion order. */
  lemma {:induction false} BulletBlockAppend(insights: seq<string>, x: string)
    ensures BulletBlock(insights + [x]) == BulletBlock(insights) + "\n- " + x
  {
    if |insights| == 0 {
      assert insights + [x] == [x];
    } else {
      assert (insights + [x])[0] == insights[0];
      assert (insights + [x])[1..] == insights[1..] + [x];
      BulletBlockAppend(insights[1..], x);
    }
  }

  /** The text `get-insights` returns. */
  function FormatInsights(insights: seq<string>): (text: string)
    ensures insights == [] <==> text == NoInsightsReply
    ensures insights != [] ==> text == "\n\nRecorded Insights:" + BulletBlock(insights)
  {
    if |insights| == 0 then
      NoInsightsReply
    else
      JoinBullets(insights);
      var text := InsightsHeader + Join(Bullets(insights), "\n");
      assert text[0] == '\n' != NoInsightsReply[0];
      text
  }

  /** Recording one more insight adds one more line at the end of the
      listing and leaves the lines before it as they were. */
  lemma FormatInsightsAppend(insights: seq<string>, x: string)
    requires insights != []
    ensures FormatInsights(insights + [x]) == FormatInsights(insights) + "\n- " + x
  {
    BulletBlockAppend(insights, x);
  }

  /** Submit a query through `execute_query`, which validates the dataset
      again before building the job. */
  function Plan(sql: string, dataset: string, entries: seq<(string, string)>,
                allowed: seq<string>, projection: Projection): (r: Result<Action, ToolError>)
    ensures r.Success? ==>
      && r.value.RunQuery?
      && r.value.dataset == dataset
      && r.value.projection == projection
      && r.value.job.sql == sql
      && dataset in allowed
  {
    match PrepareQuery(sql, dataset, entries, allowed)
    case Failure(e) => Failure(InvalidDataset(e))
    case Success(job) => Success(RunQuery(dataset, job, projection))
  }

  /** The part of `execute_tool` that runs once a dataset-bearing tool's
      `dataset` argument has been validated. */
  function DatasetTool(tool: Tool, dataset: string, args: Arguments, allowed: seq<string>,
                       refsOk: string -> bool): (r: Result<Action, ToolError>)
    requires tool.NeedsDataset()
    ensures r.Success? ==> r.value.RunQuery? && r.value.dataset == dataset && dataset in allowed
  {
    match tool
    case ListTables =>
      Plan(ListTablesSql, dataset, [], allowed, TableNames)
    case DescribeTable =>
      var tableName := Get(args, "table_name");
      if !Truthy(tableName) then Failure(MissingTableName)
      else Plan(DescribeTableSql, dataset, [("table_name", tableName.value)], allowed, ColumnDescriptions)
    case ReadQuery =>
      var query := Strip(Get(args, "query").GetOr(""));
      if query == "" then Failure(MissingQuery)
      else if !refsOk(query) then Failure(QueryRejected(query))
      else Plan(query, dataset, [], allowed, AllRows)
  }

  /** `execute_tool` as a decision. `refsOk` stands for
      `validate_query_datasets`, whose rules are not part of this model: it
      accepts or refuses the stripped query text of `read-query`. */
  function Execute(name: string, args: Arguments, allowed: seq<string>, insights: seq<string>,
                   refsOk: string -> bool): (r: Result<Action, ToolError>)
    ensures name !in ToolNames() ==> r == Failure(UnknownTool(name))
    ensures r.Success? && r.value.RunQuery? ==>
      && name in {"list-tables", "describe-table", "read-query"}
      && r.value.dataset != ""
      && r.value.dataset in allowed
      && Get(args, "dataset") == Some(r.value.dataset)
      && r.value.job.defaultDataset == DefaultDataset(r.value.dataset)
  {
    match LookupTool(name)
    case None => Failure(UnknownTool(name))
    case Some(tool) =>
      match tool
      case ListDatasets => Success(ReturnDatasets(allowed))
      case AppendInsight =>
        if "finding" !in args then Failure(MissingFinding)
        else Success(RecordInsight(args["finding"], InsightAddedReply))
      case GetInsights => Success(ReturnText(FormatInsights(insights)))
      case _ =>
        var dataset := Get(args, "dataset");
        if !Truthy(dataset) then Failure(MissingDataset(name))
        else
          match ValidateDataset(dataset.value, allowed)
          case Fail(e) => Failure(InvalidDataset(e))
          case Pass =>
            var r := DatasetTool(tool, dataset.value, args, allowed, refsOk);
            assert ValidateDataset(dataset.value, allowed).Pass?;
            r
  }

  /** The insights after a tool call: a successful `append-insight` adds its
      finding at the end; every other outcome leaves them as they were. */
  function InsightsAfter(outcome: Result<Action, ToolError>, insights: seq<string>): (after: seq<string>)
    ensures |insights| <= |after| <= |insights| + 1
    ensures after[..|insights|] == insights
    ensures |after| == |insights| + 1 <==> outcome.Success? && outcome.value.RecordInsight?
    ensures |after| > |insights| ==> after[|insights|] == outcome.value.finding
  {
    if outcome.Success? && outcome.value.RecordInsight? then insights + [outcome.value.finding]
    else insights
  }

  // ---------------------------------------------------------------------
  // Properties of the decision, tool by tool
  // ---------------------------------------------------------------------

  /** `list-datasets` needs no argument, validates nothing and returns the
      allow-list, even an empty one. */
  lemma ListDatasetsReturnsAllowList(args: Arguments, allowed: seq<string>, insights: seq<string>,
                                     refsOk: string -> bool)
    ensures Execute("list-datasets", args, allowed, insights, refsOk) == Success(ReturnDatasets(allowed))
  {
  }

  /** For the dataset-bearing tools the `dataset` argument is checked first,
      before any other argument: missing or empty, then not allowed. */
  lemma DatasetCheckedFirst(tool: Tool, args: Arguments, allowed: seq<string>, insights: seq<string>,
                            refsOk: string -> bool)
    requires tool.NeedsDataset()
    ensures !Truthy(Get(args, "dataset")) ==>
      Execute(tool.Name(), args, allowed, insights, refsOk) == Failure(MissingDataset(tool.Name()))
    ensures Truthy(Get(args, "dataset")) && args["dataset"] !in allowed ==>
      Execute(tool.Name(), args, allowed, insights, refsOk)
        == Failure(InvalidDataset(NotAllowed(args["dataset"], allowed)))
  {
    LookupToolName(tool);
  }

  /** With an empty allow-list no dataset-bearing tool ever plans a query. */
  lemma EmptyAllowListPlansNothing(name: string, args: Arguments, insights: seq<string>,
                                   refsOk: string -> bool)
    ensures var r := Execute(name, args, [], insights, refsOk);
      !(r.Success? && r.value.RunQuery?)
  {
  }

  /** `list-tables` on an allowed dataset plans the fixed table listing with
      the dataset as default and no parameters. */
  lemma ListTablesPlan(args: Arguments, allowed: seq<string>, insights: seq<string>,
                       refsOk: string -> bool)
    requires Truthy(Get(args, "dataset")) && args["dataset"] in allowed
    ensures Execute("list-tables", args, allowed, insights, refsOk)
      == Success(RunQuery(args["dataset"],
                          QueryJob(ListTablesSql, DefaultDataset(args["dataset"]), []),
                          TableNames))
  {
    LookupToolName(ListTables);
  }

  /** `describe-table` on an allowed dataset refuses a missing or empty
      table name; otherwise the SQL text is the fixed one, whatever the
      table name, and the name is bound only as the `table_name` STRING
      parameter. */
  lemma DescribeTablePlan(args: Arguments, allowed: seq<string>, insights: seq<string>,
                          refsOk: string -> bool)
    requires Truthy(Get(args, "dataset")) && args["dataset"] in allowed
    ensures !Truthy(Get(args, "table_name")) ==>
      Execute("describe-table", args, allowed, insights, refsOk) == Failure(MissingTableName)
    ensures Truthy(Get(args, "table_name")) ==>
      Execute("describe-table", args, allowed, insights, refsOk)
        == Success(RunQuery(args["dataset"],
                            QueryJob(DescribeTableSql, DefaultDataset(args["dataset"]),
                                     [ScalarParam("table_name", StringType, args["table_name"])]),
                            ColumnDescriptions))
  {
    LookupToolName(DescribeTable);
    if "table_name" in args {
      assert ToParams([("table_name", args["table_name"])])
        == [ScalarParam("table_name", StringType, args["table_name"])];
    }
  }

  /** `read-query` on an allowed dataset strips the query, refuses it when
      nothing is left, asks the reference check only then, and plans the
      stripped text with no parameters. */
  lemma ReadQueryPlan(args: Arguments, allowed: seq<string>, insights: seq<string>,
                      refsOk: string -> bool)
    requires Truthy(Get(args, "dataset")) && args["dataset"] in allowed
    ensures var query := Strip(Get(args, "query").GetOr(""));
      && (query == "" ==>
            Execute("read-query", args, allowed, insights, refsOk) == Failure(MissingQuery))
      && (query != "" && !refsOk(query) ==>
            Execute("read-query", args, allowed, insights, refsOk) == Failure(QueryRejected(query)))
      && (query != "" && refsOk(query) ==>
            Execute("read-query", args, allowed, insights, refsOk)
              == Success(RunQuery(args["dataset"],
                                  QueryJob(query, DefaultDataset(args["dataset"]), []),
                                  AllRows)))
  {
    LookupToolName(ReadQuery);
  }

  /** Every query `read-query` plans has passed the reference check and
      carries no surrounding whitespace. */
  lemma ReadQueryChecked(args: Arguments, allowed: seq<string>, insights: seq<string>,
                         refsOk: string -> bool)
    requires Execute("read-query", args, allowed, insights, refsOk).Success?
    ensures var a := Execute("read-query", args, allowed, insights, refsOk).value;
      a.RunQuery? && a.job.sql != "" && refsOk(a.job.sql) && Trimmed(a.job.sql)
  {
    LookupToolName(ReadQuery);
    assert Truthy(Get(args, "dataset")) && args["dataset"] in allowed;
    ReadQueryPlan(args, allowed, insights, refsOk);
  }

  /** A reference check that refuses everything, as a missing
      `validate_query_datasets` would by raising, lets no `read-query` plan
      a query. */
  lemma ReadQueryWithoutValidator(args: Arguments, allowed: seq<string>, insights: seq<string>)
    ensures !Execute("read-query", args, allowed, insights, _ => false).Success?
  {
    LookupToolName(ReadQuery);
  }

  /** `append-insight` needs the `finding` key, though its value may be
      empty; it then records exactly that finding. */
  lemma AppendInsightPlan(args: Arguments, allowed: seq<string>, insights: seq<string>,
                          refsOk: string -> bool)
    ensures "finding" !in args ==>
      Execute("append-insight", args, allowed, insights, refsOk) == Failure(MissingFinding)
    ensures "finding" in args ==>
      Execute("append-insight", args, allowed, insights, refsOk) == Success(RecordInsight(args["finding"], InsightAddedReply))
  {
  }

  /** `get-insights` returns the formatted listing of the recorded insights. */
  lemma GetInsightsPlan(args: Arguments, allowed: seq<string>, insights: seq<string>,
                        refsOk: string -> bool)
    ensures Execute("get-insights", args, allowed, insights, refsOk) == Success(ReturnText(FormatInsights(insights)))
  {
  }

  /** The insight list only grows, by exactly one finding, and only through
      a successful `append-insight`. */
  lemma InsightsAppendOnly(name: string, args: Arguments, allowed: seq<string>, insights: seq<string>,
                           refsOk: string -> bool)
    ensures var after := InsightsAfter(Execute(name, args, allowed, insights, refsOk), insights);
      && (name == "append-insight" && "finding" in args ==> after == insights + [args["finding"]])
      && (!(name == "append-insight" && "finding" in args) ==> after == insights)
  {
  }
}

=== FILE: wrappers.dfy ===
/** Failure-carrying datatypes shared by the allow-list and dispatch models.
    A Python `raise ValueError(...)` becomes a `Failure`/`Fail` value here. */
module Wrappers {

  /** A value that may be missing, as Python's `dict.get` returns `None`. */
  datatype Option<+T> = None | Some(value: T) {

    /** The carried value, or `default` when there is none. */
    function GetOr(default: T): T {
      match this
      case Some(v) => v
      case None => default
    }
  }

  /** Either a computed value or the error that stopped the computation. */
  datatype Result<+R, +E> = Success(value: R) | Failure(error: E)

  /** A check that either passes or fails with an error, carrying no value;
      `:- check;` in a function returning a `Result` stops at a failed check. */
  datatype Outcome<+E> = Pass | Fail(error: E) {

    predicate IsFailure() {
      Fail?
    }

    function PropagateFailure<U>(): Result<U, E>
      requires Fail?
    {
      Failure(error)
    }
  }
}
